=== FILE: README.md ===
# luogu-badge `api/ccf.ts` in Dafny

A functional model of the pure core of the CCF-level badge endpoint. Given a
`username` and a `style`, the endpoint does four things:

1. It searches Luogu for the user.
2. It turns the first search hit into a `UserRatingInfo`: a rating, a label
   text and an optional uid.
3. It maps the rating to a shields.io background colour.
4. It requests the badge at `<escape(username)>-<escape(text)>-<color>.svg`.

The model covers the decisions between the two network calls:

- the colour and glyph tiers (`getRatingColor`, `geta`);
- the label derivation of `fetchData` and the `.catch` fallback of the handler;
- `escape`: the doubling of `-` and `_` followed by `encodeURIComponent` over
  full Unicode, with UTF-8 bytes for non-ASCII characters;
- the query defaulting;
- the badge path and the profile link.

Modules:

| module | file | contents |
|---|---|---|
| `Wrappers` | wrappers.dfy | `Option`, used for `undefined` values and failing decoders |
| `Tiers` | tiers.dfy | `RatingColor`, `Glyph` |
| `Decimal` | decimal.dfy | JavaScript's rendering of an integer as a string (`"CCF" + level`, the profile link), and its parser |
| `Doubling` | doubling.dfy | the two `replace` passes, their inverse `Undouble`, and two equivalent readings of "hyphens come in pairs" |
| `Utf8` | utf8.dfy | UTF-8 encoding and decoding of one scalar value |
| `Percent` | percent.dfy | `encodeURIComponent` (section 19.2.6.5 of ECMA-262) and its inverse, a `decodeURIComponent`-style decoder |
| `PathEscape` | escape.dfy | `escape` and its inverse `Unescape` |
| `Rating` | rating.dfy | `User`, `RatingInfo`, `fetchData`'s decision logic, the line-67 fallback |
| `Badge` | badge.dfy | query defaulting, badge path, profile link, the handler's request plan |
| `Seqs` | seqs.dfy | three concatenation facts used by the proofs |

Behaviour kept exactly as the code has it:

- **`undefined` glyph.** For a nonzero level below 3, `geta` returns `undefined`.
  The label is then `"CCF2级undefined勾"`, and the model produces that string.
- **uid.** The uid is absent (`None`) for a failed status and for an empty
  result (lines 30 and 33). It is `Some(0)` for the fallback used when the
  lookup promise rejects (line 67).
- **Empty query list.** A query value that is an empty list makes the
  parameter `undefined`. `escape(undefined)` then throws, so no badge request
  is made. `Handle` returns `badge == None` for this case.

The path reader `SplitBadgePath` is not code from this repository. It reads
`--` as part of a field and a lone `-` as a separator, and takes the longest
first field. That is one reading of the shields.io field syntax; how the
badge service itself resolves an ambiguous path is not part of this model.
`BadgePath` is shown to be recoverable by this reader. "## Findings" gives
the paths that have a second reading.

## Model

| member | source | states |
|---|---|---|
| Tiers.RatingColor | api/ccf.ts:17-22 | the colour is `ffc116` iff rating ≥ 8, `3498db` iff 6 ≤ rating ≤ 7, `5eb95e` iff 3 ≤ rating ≤ 5, `808080` iff rating < 3, so the four tiers partition the integers |
| Tiers.RatingColorMonotone | api/ccf.ts:17-22 | a higher rating never gets a lower colour tier |
| Tiers.Glyph | api/ccf.ts:23-27 | a glyph exists iff rating ≥ 3, and 金/蓝/绿/none correspond one-to-one with the gold/blue/green/grey colour of the same rating |
| Decimal.NatToString | api/ccf.ts:36 | the rendering of a natural number is a nonempty digit string that starts with `0` only for zero, which renders as `0` |
| Decimal.IntToString | api/ccf.ts:36 | the rendering is nonempty, made of digits and `-`, and starts with `-` exactly for negative numbers; no leading zero: zero is `0`, a positive number does not start with `0`, and a negative one is `-` followed by digits not starting with `0` |
| Decimal.IntToStringRoundTrip | api/ccf.ts:36 | parsing the rendering of `n` gives back `n` |
| Decimal.IntToStringInjective | api/ccf.ts:36 | distinct levels render to distinct strings |
| Doubling.DoubleSeparators | api/ccf.ts:14 | the two `replace` passes give the one-pass doubling `DoubleEach(s)`; collapsing the pairs with `Undouble` gives `s` back; every `-` in the result is paired |
| Doubling.DoubleSeparatorsIsPerChar | api/ccf.ts:14 | the two global replacements act like one simultaneous per-character pass: `-` becomes `--`, `_` becomes `__`, everything else is kept |
| Doubling.DoubleSeparatorsShape | api/ccf.ts:14 | the output length is \|s\| + count('-') + count('_'); `-` and `_` counts double; with `-` and `_` removed, input and output are the same sequence |
| Doubling.UndoubleInverse | api/ccf.ts:14 | collapsing `--` and `__` gives `s` back exactly when the string is the doubling of `s` (both directions) |
| Doubling.HyphensPairedIffEvenRuns | api/ccf.ts:14 | "each `-` pairs with the next one, left to right" holds iff every maximal run of `-` has even length |
| Doubling.DoubleSeparatorsPaired | api/ccf.ts:14 | every maximal run of `-` in a doubled string has even length |
| Utf8.Encode | api/ccf.ts:14 | the UTF-8 form of a character is 1 to 4 bytes; its lead byte announces the length, the rest are continuation bytes, and it is one byte exactly for ASCII |
| Utf8.DecodeIffEncode | api/ccf.ts:14 | a byte sequence decodes to `c` iff it is the UTF-8 encoding of `c` |
| Percent.EncodeChar | api/ccf.ts:14 | an unreserved character is kept; any other character becomes one `%XX` triplet per byte of its UTF-8 form, with `XX` in upper-case hexadecimal, and reading the triplets back gives exactly those bytes; the result contains a `-` iff the character is `-` |
| Percent.EncodeURIComponent | api/ccf.ts:14 | the output uses only unreserved characters and `%`, is at least as long as the input, and is empty iff the input is; a one-character string encodes as `EncodeChar` of that character, so with `EncodeAppend` every string is encoded character by character with upper-case `%XX` triplets |
| Percent.DecodeEncode | api/ccf.ts:14 | decoding the percent-encoding of `s` yields `s` |
| Percent.EncodeFirstChar | api/ccf.ts:14 | an encoding starts with `-` iff its input does |
| Percent.EncodeUnreservedUnchanged | api/ccf.ts:14 | a string made only of unreserved characters is its own encoding |
| Percent.EncodeKeepsHyphensPaired | api/ccf.ts:14 | percent-encoding keeps hyphens paired: it introduces no `-` and keeps each `-` |
| PathEscape.Escape | api/ccf.ts:13-15 | `escape(s)` uses only unreserved characters and `%`; every maximal run of `-` has even length; it is empty iff `s` is; it starts with `-` iff `s` does |
| PathEscape.UnescapeEscape | api/ccf.ts:13-15 | percent-decoding then undoubling `escape(s)` gives `s` back |
| PathEscape.EscapeExample | api/ccf.ts:13-15 | `escape("a-b_c")` is `a--b__c` |
| PathEscape.EscapeTrailingHyphen | api/ccf.ts:13-15 | a name ending in `-` escapes to the escaped rest followed by `--` |
| PathEscape.EscapeInjective | api/ccf.ts:13-15 | distinct inputs escape to distinct path fields |
| Rating.GlyphText | api/ccf.ts:36 | a missing glyph is concatenated as the literal `undefined` |
| Rating.LevelLabel | api/ccf.ts:36 | the label is `CCF<level>级<glyph>勾`, where the glyph is `金`, `蓝` or `绿` when the level's colour is gold, blue or green and the text `undefined` when it is grey; it has a `-` right after `CCF` exactly for negative levels |
| Rating.LevelLabelRoundTrip | api/ccf.ts:36 | reading the integer after `CCF` in the label gives back the level |
| Rating.RatingFromUsers | api/ccf.ts:32-36 | no users gives `{0, "N/A", no uid}`; otherwise rating = first user's level and uid = first user's uid; a zero level gives `暂无CCF等级`; a nonzero level gives the `LevelLabel` of that level, from which the level can be read back |
| Rating.OnlyFirstUserMatters | api/ccf.ts:34 | entries after the first never change the result |
| Rating.RatingExamples | api/ccf.ts:33-36 | `{0, 42}` gives `暂无CCF等级` with uid 42; `{9, 7}` gives `CCF9级金勾`; `{2, 5}` gives `CCF2级undefined勾`; `[]` gives `N/A` without uid |
| Rating.FetchData | api/ccf.ts:28-37 | the promise rejects exactly for a failed request or body; a non-success status gives `{0, "N/A", no uid}`; a parsed `users` list gives what `RatingFromUsers` derives from it |
| Rating.ResolveInfo | api/ccf.ts:67 | a rejected lookup becomes `{0, "N/A", uid 0}`; any other lookup gives what `fetchData` resolved |
| Rating.RatingField | api/ccf.ts:33-36 | the rating is 0 or the first user's level; a nonzero rating comes with a `CCF…勾` label naming that level |
| Rating.LabelNeverStartsWithHyphen | api/ccf.ts:30-36 | every label the handler can draw is nonempty and does not start with `-` |
| Badge.SelectParam | api/ccf.ts:62-65 | a missing parameter takes the default; a single value is used as is, even when empty; a list gives its first element, or `undefined` when it is empty |
| Badge.OptionalIntText | api/ccf.ts:48 | a present uid renders as its decimal string `IntToString(uid)`, which reads back as the uid; an absent one renders as `undefined` |
| Badge.ProfileLink | api/ccf.ts:48 | the link is the Luogu profile prefix followed by the decimal string of the uid, which reads back as the uid, or by the text `undefined` when there is no uid |
| Badge.BadgePath | api/ccf.ts:54 | when the label is nonempty and does not start with `-`, splitting the path at lone hyphens gives back the escaped name, the escaped label and `<color>.svg` |
| Badge.FieldsSplit | api/ccf.ts:54 | any three fields joined with `-` as on line 54 split back apart, provided the first two hold only paired hyphens, the colour does not start with `-`, and the middle one is nonempty and does not start with `-` |
| Badge.EmptyLabelBreaksSplit | api/ccf.ts:54 | with an empty label, the path of any name cannot be split into fields, so the label condition of `BadgePath` is needed |
| Badge.Handle | api/ccf.ts:61-68 | the record comes from the lookup with its fallback; a badge is requested iff `username` is defined; it uses the selected keyword and style, the path `BadgePath(keyword, record)` and the profile link of the resolved uid; when `username` is undefined the search keyword is the text `undefined` |
| Badge.TrailingHyphenAmbiguous | api/ccf.ts:54 | for a name ending in `-`, the path is both `escape(name)-escape(label)-<color>.svg` and `escape(name without its last -)-("--" + escape(label))-<color>.svg`; all four fields have paired hyphens, and the two first fields differ |
| Badge.HandlePathRoundTrip | api/ccf.ts:54 | whatever the lookup returned, the longest-first-field reading of the requested path gives exactly `escape(keyword)`, `escape(label)` and the colour of the resolved rating, and the two escaped fields unescape to the keyword and the label |
| Badge.BadgePathPrefix | api/ccf.ts:54 | the path starts with the escaped name followed by a `-` separator |
| Badge.PlainNameUnchanged | api/ccf.ts:13-15 | a name made only of letters, digits and `. ! ~ * ' ( )` is sent unchanged |
| Badge.DefaultQuery | api/ccf.ts:62 | with no parameters the keyword is `yangrenruiYRR`, the style is `for-the-badge`, and the path starts with `yangrenruiYRR-` |

## Left out

- Both `fetch` calls (api/ccf.ts:29, 53-55) are network I/O. The outcome of the user search is the parameter `LookupResponse`.
- The badge-render response (api/ccf.ts:57-58) and the Vercel response with its status, headers and `error` body (api/ccf.ts:68-78) are platform plumbing. `Handle` stops at the request it would send.
- `res.json()` parsing is left out. `Failed` stands for every way it can throw, including a body without a `users` list.
- `URLSearchParams` serialisation and the base64 `logo` constant (api/ccf.ts:5-6, 44-49) are a library encoder and opaque data. `BadgeRequest` keeps `style` and `link` unserialised.
- `console.log` (api/ccf.ts:51) has no effect on the result.
- The lookup keyword is not URL-encoded by the source. The model passes it through as a string.
- Decimal.IntToString: levels are integers. JavaScript's exponent form for magnitudes of 10^21 and above is not modelled, and neither are non-integer or `NaN` levels.
- Percent.EncodeURIComponent: lone UTF-16 surrogates, on which `encodeURIComponent` throws `URIError`, cannot occur, because Dafny characters are Unicode scalar values.
- `ccfLevel == 0` is JavaScript loose equality. The model takes `ccfLevel` and `uid` to be integers, so only numeric comparison is modelled.
- The `Promise` chaining itself is not modelled. `FetchData` returns `None` where the promise rejects, and `ResolveInfo` applies the `.catch`.

## Findings

| source | as written | input that shows it | evidently intended | confidence | as-written member | corrected member |
|---|---|---|---|---|---|---|
| api/ccf.ts:54 | `escape` doubles every `-`, so a username ending in `-` gives a first field ending in `--`, and the path can be cut into fields with paired hyphens in two places | username `a-`, label `CCF`, rating 0: the path `a---CCF-808080.svg` reads as `a--` then `CCF`, and also as `a` then `--CCF` | every path has one reading, giving back the name and label that were sent | low; not executed; which reading the badge service applies is not part of this model | Badge.TrailingHyphenAmbiguous | Badge.BadgePath, read by the longest-first-field `SplitBadgePath`: its ensures gives back exactly the sent fields for every label the handler can draw |

=== FILE: badge.dfy ===
/** The request side of the handler in `api/ccf.ts`: query defaulting, the
    `<user>-<text>-<color>.svg` badge path, the profile link, and what the
    handler asks the badge service for. The path is read back by
    `SplitBadgePath`, which splits it at lone hyphens (reading `--` as part of
    a field) and takes the longest first field; that is one reading of the
    badge service's field syntax, not necessarily the service's own. */
module Badge {
  import opened Wrappers
  import opened Tiers
  import opened Decimal
  import opened Doubling
  import opened PathEscape
  import opened Rating
  import opened Seqs

  /** A query parameter as the platform hands it over. */
  datatype QueryValue = Missing | Single(value: string) | Multiple(values: seq<string>)

  datatype Query = Query(username: QueryValue, style: QueryValue)

  const DefaultUsername := "yangrenruiYRR"
  const DefaultStyle := "for-the-badge"
  const ProfilePrefix := "https://www.luogu.com.cn/user/"

  /** Destructuring default plus first-of-list; None is `undefined`, which
      only an empty list produces. An empty string is kept, not defaulted. */
  function SelectParam(v: QueryValue, default: string): (p: Option<string>)
    ensures v.Missing? ==> p == Some(default)
    ensures v.Single? ==> p == Some(v.value)
    ensures v.Multiple? ==> (p.Some? <==> |v.values| > 0)
    ensures v.Multiple? && p.Some? ==> p.value == v.values[0]
  {
    match v
    case Missing => Some(default)
    case Single(s) => Some(s)
    case Multiple(xs) => if |xs| > 0 then Some(xs[0]) else None
  }

  /** String concatenation of a possibly absent integer. */
  function OptionalIntText(n: Option<int>): (text: string)
    ensures n.Some? ==> text == IntToString(n.value) && ParseInt(text) == Some(n.value)
    ensures n.None? ==> text == "undefined"
  {
    match n
    case Some(v) => IntToStringRoundTrip(v); IntToString(v)
    case None => "undefined"
  }

  /** The `link` parameter: the profile page of the resolved uid. */
  function ProfileLink(uid: Option<int>): (link: string)
    ensures |link| > |ProfilePrefix| && link[..|ProfilePrefix|] == ProfilePrefix
    ensures uid.Some? ==> link == ProfilePrefix + IntToString(uid.value)
    ensures uid.Some? ==> ParseInt(link[|ProfilePrefix|..]) == Some(uid.value)
    ensures uid.None? ==> link == ProfilePrefix + "undefined"
  {
    ProfilePrefix + OptionalIntText(uid)
  }

  /** Line 54: `${escape(username)}-${escape(text)}-${color}.svg`. Splitting
      it at lone hyphens gives the three fields back whenever the label is
      nonempty and does not start with `-`. */
  function BadgePath(username: string, info: RatingInfo): (path: string)
    ensures |info.text| > 0 && info.text[0] != '-' ==>
      SplitBadgePath(path) == Some((Escape(username), Escape(info.text), RatingColor(info.rating) + ".svg"))
  {
    var name, text, color := Escape(username), Escape(info.text), RatingColor(info.rating);
    assert color[0] != '-' by {
      assert color in {Gold, Blue, Green, Grey};
    }
    FieldsSplit(name, text, color);
    name + "-" + text + "-" + color + ".svg"
  }

  /** Three fields joined as on line 54 split back apart when the first two
      hold only paired hyphens, the colour does not start with `-`, and the
      middle one is nonempty and does not start with `-`. */
  lemma FieldsSplit(name: string, text: string, color: string)
    requires HyphensPaired(name) && HyphensPaired(text)
    requires |color| == 0 || color[0] != '-'
    ensures |text| > 0 && text[0] != '-' ==>
      SplitBadgePath(name + "-" + text + "-" + color + ".svg") == Some((name, text, color + ".svg"))
  {
    if |text| > 0 && text[0] != '-' {
      var tail := color + ".svg";
      BadgePathAssoc(name, text, color);
      assert tail[|color|] == '.';
      if |color| > 0 {
        assert tail[0] == color[0];
      }
      ScanPairedField(name, text + "-" + tail);
      ScanPairedField(text, tail);
    }
  }

  /** Reads one field up to the first lone `-`, keeping `--` pairs inside the
      field; also returns what follows that separator, or None when there is
      no separator. */
  function ScanField(t: string): (string, Option<string>)
    decreases |t|
  {
    if t == [] then ([], None)
    else if t[0] == '-' then
      if |t| >= 2 && t[1] == '-' then
        var (field, rest) := ScanField(t[2..]);
        ("--" + field, rest)
      else ([], Some(t[1..]))
    else
      var (field, rest) := ScanField(t[1..]);
      ([t[0]] + field, rest)
  }

  /** Splits a badge path into its name, label and colour-with-suffix parts. */
  function SplitBadgePath(path: string): Option<(string, string, string)> {
    var (name, rest) := ScanField(path);
    if rest.None? then None
    else
      var (middle, tail) := ScanField(rest.value);
      if tail.None? then None else Some((name, middle, tail.value))
  }

  lemma {:induction false} ScanPairedField(a: string, r: string)
    requires HyphensPaired(a)
    requires |r| == 0 || r[0] != '-'
    ensures ScanField(a + "-" + r) == (a, Some(r))
    decreases |a|
  {
    var t := a + "-" + r;
    if a == [] {
      assert t == ['-'] + r;
      assert t[1..] == r;
    } else if a[0] == '-' {
      assert t[2..] == a[2..] + "-" + r;
      ScanPairedField(a[2..], r);
      assert "--" + a[2..] == a;
    } else {
      assert t[1..] == a[1..] + "-" + r;
      ScanPairedField(a[1..], r);
      assert [a[0]] + a[1..] == a;
    }
  }

  /** The badge path regrouped around its first separator. */
  lemma BadgePathAssoc(name: string, text: string, color: string)
    ensures name + "-" + text + "-" + color + ".svg" == name + "-" + (text + "-" + (color + ".svg"))
  {
  }

  /** A string whose hyphens are all paired holds no separator. */
  lemma {:induction false} PairedHasNoSeparator(t: string)
    requires HyphensPaired(t)
    ensures ScanField(t).1 == None
    decreases |t|
  {
    if t != [] {
      if t[0] == '-' {
        PairedHasNoSeparator(t[2..]);
      } else {
        PairedHasNoSeparator(t[1..]);
      }
    }
  }

  lemma {:induction false} PairedAppend(a: string, b: string)
    requires HyphensPaired(a) && HyphensPaired(b)
    ensures HyphensPaired(a + b)
    decreases |a|
  {
    if a == [] {
      assert a + b == b;
    } else if a[0] == '-' {
      assert (a + b)[2..] == a[2..] + b;
      PairedAppend(a[2..], b);
    } else {
      assert (a + b)[1..] == a[1..] + b;
      PairedAppend(a[1..], b);
    }
  }

  /** Why the label must be nonempty: with an empty label the two separators
      around it read as one escaped hyphen, and the path of any name cannot
      be split at all. */
  lemma EmptyLabelBreaksSplit(username: string, info: RatingInfo)
    requires info.text == ""
    ensures SplitBadgePath(BadgePath(username, info)) == None
  {
    var path := BadgePath(username, info);
    EmptyLabelPathPaired(username, info);
    PairedHasNoSeparator(path);
  }

  lemma EmptyLabelPathPaired(username: string, info: RatingInfo)
    requires info.text == ""
    ensures HyphensPaired(BadgePath(username, info))
  {
    var e := Escape(username);
    var color := RatingColor(info.rating);
    assert Escape(info.text) == "";
    EmptyMiddle(e, color);
    ColorSuffixPaired(info.rating);
    PairedAppend(e, "--" + (color + ".svg"));
  }

  lemma EmptyMiddle(name: string, color: string)
    ensures name + "-" + "" + "-" + color + ".svg" == name + ("--" + (color + ".svg"))
  {
    BadgePathAssoc(name, "", color);
  }

  lemma ColorSuffixPaired(rating: int)
    ensures HyphensPaired("--" + (RatingColor(rating) + ".svg"))
  {
    var tail := RatingColor(rating) + ".svg";
    assert '-' !in tail by {
      assert RatingColor(rating) in {Gold, Blue, Green, Grey};
    }
    PairedPrefix(tail, []);
    assert tail + [] == tail;
    var t := "--" + tail;
    assert t[0] == '-' && t[1] == '-' && t[2..] == tail;
  }

  /** The request to the badge service: path, `style` and `link`. */
  datatype BadgeRequest = BadgeRequest(path: string, style: Option<string>, link: string)

  /** What one handler call does: the search keyword it sends, the record it
      resolves, and the badge request, absent when `username` is
      `undefined` (then `escape` throws and the handler answers 500). */
  datatype Plan = Plan(keyword: string, info: RatingInfo, badge: Option<BadgeRequest>)

  function Handle(q: Query, lookup: LookupResponse): (plan: Plan)
    ensures plan.info == ResolveInfo(lookup)
    ensures plan.badge.Some? <==> SelectParam(q.username, DefaultUsername).Some?
    ensures plan.badge.Some? ==>
      && plan.keyword == SelectParam(q.username, DefaultUsername).value
      && plan.badge.value.style == SelectParam(q.style, DefaultStyle)
      && plan.badge.value.path == BadgePath(plan.keyword, plan.info)
      && plan.badge.value.link == ProfileLink(plan.info.uid)
    ensures plan.badge.None? ==> plan.keyword == "undefined"
  {
    var username := SelectParam(q.username, DefaultUsername);
    var style := SelectParam(q.style, DefaultStyle);
    var info := ResolveInfo(lookup);
    match username
    case None => Plan("undefined", info, None)
    case Some(name) =>
      Plan(name, info, Some(BadgeRequest(BadgePath(name, info), style, ProfileLink(info.uid))))
  }

  /** End to end: whatever the lookup did, the longest-first-field reading
      `SplitBadgePath` of the requested path gives back the escaped name and
      label, which unescape to the requested name and the resolved label, and
      the colour of the resolved rating. */
  lemma HandlePathRoundTrip(q: Query, lookup: LookupResponse)
    requires SelectParam(q.username, DefaultUsername).Some?
    ensures var plan := Handle(q, lookup);
      var path := plan.badge.value.path;
      var name, text := Escape(plan.keyword), Escape(plan.info.text);
      && SplitBadgePath(path) == Some((name, text, RatingColor(plan.info.rating) + ".svg"))
      && Unescape(name) == Some(plan.keyword)
      && Unescape(text) == Some(plan.info.text)
  {
    var plan := Handle(q, lookup);
    LabelNeverStartsWithHyphen(lookup);
    UnescapeEscape(plan.keyword);
    UnescapeEscape(plan.info.text);
  }

  /** A name made of letters, digits and the marks `. ! ~ * ' ( )` is
      sent unchanged. */
  lemma {:induction false} PlainNameUnchanged(s: string)
    requires forall i :: 0 <= i < |s| ==> Percent.Unreserved(s[i]) && s[i] != '-' && s[i] != '_'
    ensures Escape(s) == s
    decreases |s|
  {
    DoubleSeparatorsIsPerChar(s);
    if s != [] {
      PlainNameUnchanged(s[1..]);
      DoubleSeparatorsIsPerChar(s[1..]);
      assert DoubleEach(s) == [s[0]] + DoubleEach(s[1..]);
      assert Percent.EncodeURIComponent(DoubleEach(s)) == [s[0]] + Percent.EncodeURIComponent(DoubleEach(s[1..]));
      assert [s[0]] + s[1..] == s;
    }
  }

  lemma DefaultNameIsPlain()
    ensures forall i :: 0 <= i < |DefaultUsername| ==>
      Percent.Unreserved(DefaultUsername[i]) && DefaultUsername[i] != '-' && DefaultUsername[i] != '_'
  {
    forall i | 0 <= i < |DefaultUsername|
      ensures 'A' <= DefaultUsername[i] <= 'Z' || 'a' <= DefaultUsername[i] <= 'z'
    {
    }
  }

  /** The path starts with the escaped name and a separator. */
  lemma BadgePathPrefix(username: string, info: RatingInfo)
    ensures var n := |Escape(username)| + 1;
      |BadgePath(username, info)| > n && BadgePath(username, info)[..n] == Escape(username) + "-"
  {
    var head := Escape(username) + "-";
    var x1 := head + Escape(info.text);
    var x2 := x1 + "-";
    var x3 := x2 + RatingColor(info.rating);
    assert BadgePath(username, info) == x3 + ".svg";
    var n := |head|;
    PrefixThroughAppend(head, Escape(info.text), n);
    PrefixThroughAppend(x1, "-", n);
    PrefixThroughAppend(x2, RatingColor(info.rating), n);
    PrefixThroughAppend(x3, ".svg", n);
  }

  /** The default name is sent unescaped at the head of the path. */
  lemma DefaultPathPrefix(info: RatingInfo)
    ensures |BadgePath(DefaultUsername, info)| > 14
    ensures BadgePath(DefaultUsername, info)[..14] == "yangrenruiYRR-"
  {
    DefaultEscapesToItself();
    BadgePathPrefix(DefaultUsername, info);
  }

  lemma DefaultEscapesToItself()
    ensures Escape(DefaultUsername) == DefaultUsername
  {
    DefaultNameIsPlain();
    PlainNameUnchanged(DefaultUsername);
  }

  /** With no query parameters the documented defaults are used. */
  lemma DefaultQuery(lookup: LookupResponse)
    ensures var plan := Handle(Query(Missing, Missing), lookup);
      && plan.keyword == "yangrenruiYRR"
      && plan.badge.Some?
      && plan.badge.value.style == Some("for-the-badge")
      && |plan.badge.value.path| > 14 && plan.badge.value.path[..14] == "yangrenruiYRR-"
  {
    var plan := Handle(Query(Missing, Missing), lookup);
    assert plan.badge.value.path == BadgePath(DefaultUsername, ResolveInfo(lookup));
    DefaultPathPrefix(ResolveInfo(lookup));
  }

  /** A name ending in `-` escapes to a field ending in `--`, so its path has
      a second reading into fields with paired hyphens: the escaped name
      without that last pair, then a label that starts with it. The two
      readings differ in their first field. */
  lemma TrailingHyphenAmbiguous(prefix: string, info: RatingInfo)
    ensures var path := BadgePath(prefix + "-", info);
      var text, tail := Escape(info.text), RatingColor(info.rating) + ".svg";
      && path == Escape(prefix + "-") + "-" + text + "-" + tail
      && path == Escape(prefix) + "-" + ("--" + text) + "-" + tail
      && Escape(prefix) != Escape(prefix + "-")
      && HyphensPaired(Escape(prefix + "-")) && HyphensPaired(text)
      && HyphensPaired(Escape(prefix)) && HyphensPaired("--" + text)
  {
    var text, tail := Escape(info.text), RatingColor(info.rating) + ".svg";
    EscapeTrailingHyphen(prefix);
    ShiftPair(Escape(prefix), text, tail);
    var t := "--" + text;
    assert t[2..] == text;
  }

  /** Moving a `--` from the end of the first field to the front of the
      second leaves the joined string unchanged. */
  lemma ShiftPair(name: string, text: string, tail: string)
    ensures (name + "--") + "-" + text + "-" + tail == name + "-" + ("--" + text) + "-" + tail
  {
  }
}

=== FILE: decimal.dfy ===
/** JavaScript's rendering of an integer-valued number as a string, as used by
    `"CCF" + user0.ccfLevel` and by the profile link, together with a parser
    that reads the rendering back. */
module Decimal {
  import opened Wrappers

  predicate IsDigit(c: char) {
    '0' <= c <= '9'
  }

  function DigitChar(d: int): (c: char)
    requires 0 <= d < 10
    ensures IsDigit(c) && c as int - '0' as int == d
  {
    "0123456789"[d]
  }

  function DigitValue(c: char): (d: nat)
    requires IsDigit(c)
    ensures d < 10
  {
    c as int - '0' as int
  }

  /** A character that can appear in the rendering of an integer. */
  predicate IsNumeral(c: char) {
    c == '-' || IsDigit(c)
  }

  predicate AllDigits(s: string) {
    forall i :: 0 <= i < |s| ==> IsDigit(s[i])
  }

  /** Decimal digits of a natural number, most significant first. */
  function NatToString(n: nat): (s: string)
    decreases n
    ensures |s| >= 1 && AllDigits(s)
    ensures s[0] == '0' <==> n == 0
    ensures n == 0 ==> s == "0"
  {
    if n < 10 then [DigitChar(n)] else NatToString(n / 10) + [DigitChar(n % 10)]
  }

  /** `String(n)` for an integer `n`: a leading minus sign for negatives. */
  function IntToString(n: int): (s: string)
    ensures |s| >= 1
    ensures s[0] == '-' <==> n < 0
    ensures forall i :: 0 <= i < |s| ==> IsNumeral(s[i])
    ensures n >= 0 ==> (s[0] == '0' <==> n == 0) && (n == 0 ==> s == "0")
    ensures n < 0 ==> |s| > 1 && s[1] != '0' && AllDigits(s[1..])
  {
    if n < 0 then "-" + NatToString(-n) else NatToString(n)
  }

  /** Value of a string of decimal digits. */
  function ParseNat(s: string): nat
    requires AllDigits(s)
    decreases |s|
  {
    if s == [] then 0 else ParseNat(s[..|s| - 1]) * 10 + DigitValue(s[|s| - 1])
  }

  /** Reads an optionally negative decimal integer; None unless the whole
      string is one. */
  function ParseInt(s: string): Option<int> {
    if |s| > 0 && s[0] == '-' then
      if |s| > 1 && AllDigits(s[1..]) then Some(0 - ParseNat(s[1..]) as int) else None
    else if |s| > 0 && AllDigits(s) then Some(ParseNat(s))
    else None
  }

  lemma {:induction false} NatToStringRoundTrip(n: nat)
    ensures ParseNat(NatToString(n)) == n
    decreases n
  {
    if n >= 10 {
      NatToStringRoundTrip(n / 10);
      var s := NatToString(n);
      assert s[..|s| - 1] == NatToString(n / 10);
    }
  }

  /** The rendering of an integer reads back as that integer. */
  lemma IntToStringRoundTrip(n: int)
    ensures ParseInt(IntToString(n)) == Some(n)
  {
    if n < 0 {
      NatToStringRoundTrip(-n);
      assert IntToString(n)[1..] == NatToString(-n);
    } else {
      NatToStringRoundTrip(n);
    }
  }

  /** Distinct integers render differently. */
  lemma IntToStringInjective(m: int, n: int)
    requires IntToString(m) == IntToString(n)
    ensures m == n
  {
    IntToStringRoundTrip(m);
    IntToStringRoundTrip(n);
  }
}

=== FILE: doubling.dfy ===
/** The first half of `escape` in `api/ccf.ts`: the two global replacements
    `replace(/-/g, '--')` then `replace(/_/g, '__')`, its inverse, and the
    shape every doubled string has (hyphens only in adjacent pairs). */
module Doubling {
  import opened Wrappers

  /** Number of occurrences of `c` in `s`. */
  function Count(s: string, c: char): nat {
    if s == [] then 0 else (if s[0] == c then 1 else 0) + Count(s[1..], c)
  }

  /** `s.replace(/c/g, rep)` for a one-character pattern: every occurrence of
      `c`, scanning left to right, is replaced by `rep`. */
  function ReplaceAll(s: string, c: char, rep: string): string {
    if s == [] then [] else (if s[0] == c then rep else [s[0]]) + ReplaceAll(s[1..], c, rep)
  }

  /** The doubling step of `escape`, two passes as in the source. It agrees
      with the one-pass reference `DoubleEach`, `Undouble` undoes it, and it
      leaves every hyphen paired with its neighbour. */
  function DoubleSeparators(s: string): (r: string)
    ensures r == DoubleEach(s)
    ensures Undouble(r) == Some(s)
    ensures HyphensPaired(r)
  {
    DoubleSeparatorsIsPerChar(s);
    UndoubleDoubleEach(s);
    DoubleEachPaired(s);
    ReplaceAll(ReplaceAll(s, '-', "--"), '_', "__")
  }

  /** What one character of the input becomes. */
  function DoubleChar(c: char): string {
    if c == '-' then "--" else if c == '_' then "__" else [c]
  }

  /** Reference definition: each character doubled or kept, in one pass. */
  function DoubleEach(s: string): string {
    if s == [] then [] else DoubleChar(s[0]) + DoubleEach(s[1..])
  }

  /** `s` with every `-` and `_` removed. */
  function Strip(s: string): string {
    if s == [] then []
    else if s[0] == '-' || s[0] == '_' then Strip(s[1..])
    else [s[0]] + Strip(s[1..])
  }

  lemma {:induction false} ReplaceAllAppend(a: string, b: string, c: char, rep: string)
    ensures ReplaceAll(a + b, c, rep) == ReplaceAll(a, c, rep) + ReplaceAll(b, c, rep)
    decreases |a|
  {
    if a == [] {
      assert a + b == b;
    } else {
      assert (a + b)[1..] == a[1..] + b;
      ReplaceAllAppend(a[1..], b, c, rep);
    }
  }

  /** The two source passes act like one simultaneous pass: the second pass
      never touches what the first one wrote. */
  lemma {:induction false} DoubleSeparatorsIsPerChar(s: string)
    ensures ReplaceAll(ReplaceAll(s, '-', "--"), '_', "__") == DoubleEach(s)
    decreases |s|
  {
    if s != [] {
      PassesStep(s);
      DoubleSeparatorsIsPerChar(s[1..]);
    }
  }

  /** Both passes over the first character, then over the rest. */
  lemma PassesStep(s: string)
    requires s != []
    ensures ReplaceAll(ReplaceAll(s, '-', "--"), '_', "__")
         == DoubleChar(s[0]) + ReplaceAll(ReplaceAll(s[1..], '-', "--"), '_', "__")
  {
    var first := if s[0] == '-' then "--" else [s[0]];
    assert ReplaceAll(s, '-', "--") == first + ReplaceAll(s[1..], '-', "--");
    ReplaceAllAppend(first, ReplaceAll(s[1..], '-', "--"), '_', "__");
    assert ReplaceAll(first, '_', "__") == DoubleChar(s[0]) by {
      if s[0] == '-' {
        assert ReplaceAll("--", '_', "__") == "-" + ReplaceAll("-", '_', "__");
      }
    }
  }

  lemma {:induction false} DoubleEachAppend(a: string, b: string)
    ensures DoubleEach(a + b) == DoubleEach(a) + DoubleEach(b)
    decreases |a|
  {
    if a == [] {
      assert a + b == b;
    } else {
      assert (a + b)[1..] == a[1..] + b;
      DoubleEachAppend(a[1..], b);
    }
  }

  lemma {:induction false} DoubleEachLength(s: string)
    ensures |DoubleEach(s)| == |s| + Count(s, '-') + Count(s, '_')
    decreases |s|
  {
    if s != [] {
      DoubleEachLength(s[1..]);
    }
  }

  lemma {:induction false} CountAppend(a: string, b: string, c: char)
    ensures Count(a + b, c) == Count(a, c) + Count(b, c)
    decreases |a|
  {
    if a == [] {
      assert a + b == b;
    } else {
      assert (a + b)[1..] == a[1..] + b;
      CountAppend(a[1..], b, c);
    }
  }

  lemma {:induction false} StripAppend(a: string, b: string)
    ensures Strip(a + b) == Strip(a) + Strip(b)
    decreases |a|
  {
    if a == [] {
      assert a + b == b;
    } else {
      assert (a + b)[1..] == a[1..] + b;
      StripAppend(a[1..], b);
    }
  }

  /** The doubling step: the output is `|s| + count('-') + count('_')` long,
      holds twice as many `-` and `_` as the input, and with those removed
      both sides are the same sequence, so every other character survives
      unchanged and in order. */
  lemma {:induction false} DoubleSeparatorsShape(s: string)
    ensures |DoubleSeparators(s)| == |s| + Count(s, '-') + Count(s, '_')
    ensures Count(DoubleSeparators(s), '-') == 2 * Count(s, '-')
    ensures Count(DoubleSeparators(s), '_') == 2 * Count(s, '_')
    ensures Strip(DoubleSeparators(s)) == Strip(s)
    decreases |s|
  {
    DoubleSeparatorsIsPerChar(s);
    DoubleEachLength(s);
    if s != [] {
      DoubleSeparatorsShape(s[1..]);
      DoubleSeparatorsIsPerChar(s[1..]);
      CountAppend(DoubleChar(s[0]), DoubleEach(s[1..]), '-');
      CountAppend(DoubleChar(s[0]), DoubleEach(s[1..]), '_');
      StripAppend(DoubleChar(s[0]), DoubleEach(s[1..]));
      if s[0] == '-' {
        assert Strip("--") == Strip("-") == [];
      } else if s[0] == '_' {
        assert Strip("__") == Strip("_") == [];
      } else {
        assert Strip([s[0]]) == [s[0]] + Strip([]);
      }
    }
  }

  /** Collapses `--` to `-` and `__` to `_`, scanning left to right; a lone
      `-` or `_` means the input is not a doubled string. */
  function Undouble(t: string): Option<string>
    decreases |t|
  {
    if t == [] then Some([])
    else if t[0] == '-' || t[0] == '_' then
      if |t| >= 2 && t[1] == t[0] then
        match Undouble(t[2..])
        case Some(rest) => Some([t[0]] + rest)
        case None => None
      else None
    else
      match Undouble(t[1..])
      case Some(rest) => Some([t[0]] + rest)
      case None => None
  }

  lemma {:induction false} UndoubleDoubleEach(s: string)
    ensures Undouble(DoubleEach(s)) == Some(s)
    decreases |s|
  {
    if s != [] {
      UndoubleDoubleEach(s[1..]);
      var t := DoubleEach(s);
      if s[0] == '-' || s[0] == '_' {
        assert t == [s[0], s[0]] + DoubleEach(s[1..]);
        assert t[2..] == DoubleEach(s[1..]);
        assert Undouble(t) == Some([s[0]] + s[1..]);
        assert [s[0]] + s[1..] == s;
      } else {
        assert t == [s[0]] + DoubleEach(s[1..]);
        assert t[1..] == DoubleEach(s[1..]);
        assert Undouble(t) == Some([s[0]] + s[1..]);
        assert [s[0]] + s[1..] == s;
      }
    }
  }

  lemma {:induction false} UndoubleSound(t: string, s: string)
    requires Undouble(t) == Some(s)
    ensures DoubleEach(s) == t
    decreases |t|
  {
    if t != [] {
      if t[0] == '-' || t[0] == '_' {
        var rest :| Undouble(t[2..]) == Some(rest) && s == [t[0]] + rest;
        UndoubleSound(t[2..], rest);
        assert s[1..] == rest;
        assert t == t[..2] + t[2..];
      } else {
        var rest :| Undouble(t[1..]) == Some(rest) && s == [t[0]] + rest;
        UndoubleSound(t[1..], rest);
        assert s[1..] == rest;
        assert t == [t[0]] + t[1..];
      }
    }
  }

  /** Doubling is reversible, and `Undouble` accepts exactly the doubled
      strings. */
  lemma UndoubleInverse(s: string, t: string)
    ensures Undouble(t) == Some(s) <==> DoubleSeparators(s) == t
  {
    DoubleSeparatorsIsPerChar(s);
    if Undouble(t) == Some(s) {
      UndoubleSound(t, s);
    }
    if DoubleSeparators(s) == t {
      UndoubleDoubleEach(s);
    }
  }

  /** Scanning left to right, every `-` is immediately followed by a second
      `-` that pairs with it. */
  predicate HyphensPaired(t: string)
    decreases |t|
  {
    if t == [] then true
    else if t[0] == '-' then |t| >= 2 && t[1] == '-' && HyphensPaired(t[2..])
    else HyphensPaired(t[1..])
  }

  /** Position `i` starts a maximal run of hyphens. */
  predicate RunStart(t: string, i: int)
    requires 0 <= i < |t|
  {
    t[i] == '-' && (i == 0 || t[i - 1] != '-')
  }

  /** Number of consecutive hyphens from position `i` on. */
  function HyphenRun(t: string, i: nat): nat
    requires i <= |t|
    decreases |t| - i
  {
    if i < |t| && t[i] == '-' then 1 + HyphenRun(t, i + 1) else 0
  }

  /** Every maximal run of hyphens has even length. */
  predicate EvenHyphenRuns(t: string) {
    forall i :: 0 <= i < |t| && RunStart(t, i) ==> HyphenRun(t, i) % 2 == 0
  }

  lemma {:induction false} HyphenRunShift(t: string, d: nat, i: nat)
    requires d <= i <= |t|
    ensures HyphenRun(t, i) == HyphenRun(t[d..], i - d)
    decreases |t| - i
  {
    if i < |t| && t[i] == '-' {
      HyphenRunShift(t, d, i + 1);
    }
  }

  lemma {:induction false} PairedHasEvenRuns(t: string)
    requires HyphensPaired(t)
    ensures EvenHyphenRuns(t)
    decreases |t|
  {
    if t == [] {
    } else if t[0] == '-' {
      var u := t[2..];
      PairedHasEvenRuns(u);
      forall i | 0 <= i < |t| && RunStart(t, i)
        ensures HyphenRun(t, i) % 2 == 0
      {
        if i == 0 {
          HyphenRunShift(t, 2, 2);
          assert HyphenRun(t, 0) == 2 + HyphenRun(u, 0);
          if |u| > 0 && u[0] == '-' {
            assert RunStart(u, 0);
          }
        } else {
          assert i >= 3;
          assert RunStart(u, i - 2);
          HyphenRunShift(t, 2, i);
        }
      }
    } else {
      var u := t[1..];
      PairedHasEvenRuns(u);
      forall i | 0 <= i < |t| && RunStart(t, i)
        ensures HyphenRun(t, i) % 2 == 0
      {
        assert i >= 1;
        assert RunStart(u, i - 1);
        HyphenRunShift(t, 1, i);
      }
    }
  }

  lemma {:induction false} EvenRunsArePaired(t: string)
    requires EvenHyphenRuns(t)
    ensures HyphensPaired(t)
    decreases |t|
  {
    if t == [] {
    } else if t[0] == '-' {
      assert RunStart(t, 0);
      assert HyphenRun(t, 0) % 2 == 0;
      assert |t| >= 2 && t[1] == '-';
      var u := t[2..];
      forall j | 0 <= j < |u| && RunStart(u, j)
        ensures HyphenRun(u, j) % 2 == 0
      {
        HyphenRunShift(t, 2, j + 2);
        if j == 0 {
          assert HyphenRun(t, 0) == 2 + HyphenRun(t, 2);
        } else {
          assert RunStart(t, j + 2);
        }
      }
      EvenRunsArePaired(u);
    } else {
      var u := t[1..];
      forall j | 0 <= j < |u| && RunStart(u, j)
        ensures HyphenRun(u, j) % 2 == 0
      {
        assert RunStart(t, j + 1);
        HyphenRunShift(t, 1, j + 1);
      }
      EvenRunsArePaired(u);
    }
  }

  /** The left-to-right pairing reading and the maximal-run reading agree. */
  lemma HyphensPairedIffEvenRuns(t: string)
    ensures HyphensPaired(t) <==> EvenHyphenRuns(t)
  {
    if HyphensPaired(t) {
      PairedHasEvenRuns(t);
    }
    if EvenHyphenRuns(t) {
      EvenRunsArePaired(t);
    }
  }

  lemma {:induction false} PairedPrefix(a: string, b: string)
    requires '-' !in a
    requires HyphensPaired(b)
    ensures HyphensPaired(a + b)
    decreases |a|
  {
    if a == [] {
      assert a + b == b;
    } else {
      assert (a + b)[1..] == a[1..] + b;
      PairedPrefix(a[1..], b);
    }
  }

  lemma {:induction false} DoubleEachPaired(s: string)
    ensures HyphensPaired(DoubleEach(s))
    decreases |s|
  {
    if s != [] {
      DoubleEachPaired(s[1..]);
      if s[0] == '-' {
        assert DoubleEach(s)[2..] == DoubleEach(s[1..]);
      } else {
        PairedPrefix(DoubleChar(s[0]), DoubleEach(s[1..]));
      }
    }
  }

  /** Hyphens leave the doubling step only in pairs. */
  lemma DoubleSeparatorsPaired(s: string)
    ensures HyphensPaired(DoubleSeparators(s))
    ensures EvenHyphenRuns(DoubleSeparators(s))
  {
    DoubleSeparatorsIsPerChar(s);
    DoubleEachPaired(s);
    HyphensPairedIffEvenRuns(DoubleSeparators(s));
  }
}

=== FILE: escape.dfy ===
/** `escape` of `api/ccf.ts`: double every `-` and `_`, then apply
    `encodeURIComponent`. The doubling exists because the badge path uses a
    bare `-` as its field separator. */
module PathEscape {
  import opened Wrappers
  import opened Doubling
  import opened Percent

  /** `escape(s)`: the result uses only unreserved characters and `%`, its
      hyphens come in adjacent pairs (every maximal run of `-` is even), it
      is empty only for the empty input, and it starts with a hyphen only
      when the input does. */
  function Escape(s: string): (e: string)
    ensures EncodedAlphabet(e)
    ensures HyphensPaired(e) && EvenHyphenRuns(e)
    ensures |e| == 0 <==> |s| == 0
    ensures |s| > 0 ==> (e[0] == '-' <==> s[0] == '-')
  {
    EscapedShape(s);
    EncodeURIComponent(DoubleSeparators(s))
  }

  lemma EscapedShape(s: string)
    ensures var e := EncodeURIComponent(DoubleSeparators(s));
      && HyphensPaired(e) && EvenHyphenRuns(e)
      && (|s| > 0 ==> |e| > 0 && (e[0] == '-' <==> s[0] == '-'))
  {
    var d := DoubleSeparators(s);
    DoubleSeparatorsPaired(s);
    DoubleSeparatorsIsPerChar(s);
    EncodeKeepsHyphensPaired(d);
    HyphensPairedIffEvenRuns(EncodeURIComponent(d));
    if |s| > 0 {
      assert d == DoubleChar(s[0]) + DoubleEach(s[1..]);
      assert d[0] == '-' <==> s[0] == '-';
      EncodeFirstChar(d);
    }
  }

  /** The reading of an escaped field: percent-decode, then collapse the
      doubled `-` and `_`. */
  function Unescape(t: string): Option<string> {
    match DecodeURIComponent(t)
    case None => None
    case Some(d) => Undouble(d)
  }

  /** A trailing `-` becomes a trailing `--`. */
  lemma EscapeTrailingHyphen(prefix: string)
    ensures Escape(prefix + "-") == Escape(prefix) + "--"
  {
    var d := DoubleSeparators(prefix);
    assert DoubleSeparators(prefix + "-") == d + "--" by {
      DoubleEachAppend(prefix, "-");
      assert DoubleEach("-") == "--";
    }
    EncodeAppend(d, "--");
    EncodeUnreservedUnchanged("--");
  }

  /** Escaping loses nothing: the field reads back as the original. */
  lemma UnescapeEscape(s: string)
    ensures Unescape(Escape(s)) == Some(s)
  {
    var d := DoubleSeparators(s);
    Percent.DecodeEncode(d);
    UndoubleInverse(s, d);
  }

  /** The worked case: `a-b_c` is sent as `a--b__c`. */
  lemma EscapeExample()
    ensures Escape("a-b_c") == "a--b__c"
  {
    var d := "a--b__c";
    var s := "a-b_c";
    assert DoubleSeparators(s) == d by {
      DoubledExample(s);
    }
    assert EncodeURIComponent(d) == d by {
      UnreservedExample(d);
    }
  }

  lemma DoubledExample(s: string)
    requires s == "a-b_c"
    ensures DoubleSeparators(s) == "a--b__c"
  {
    assert s[1..][1..][1..][1..] == "c";
    assert DoubleEach("c") == "c";
    assert DoubleEach(s[1..][1..][1..]) == "__" + "c";
    assert DoubleEach(s[1..][1..]) == "b" + "__c";
    assert DoubleEach(s[1..]) == "--" + "b__c";
    assert DoubleEach(s) == "a" + "--b__c";
  }

  lemma UnreservedExample(d: string)
    requires d == "a--b__c"
    ensures EncodeURIComponent(d) == d
  {
    forall i | 0 <= i < |d|
      ensures Unreserved(d[i])
    {
      assert d[i] in "ab_c-";
    }
    EncodeUnreservedUnchanged(d);
  }

  /** Distinct inputs escape to distinct fields. */
  lemma EscapeInjective(a: string, b: string)
    requires Escape(a) == Escape(b)
    ensures a == b
  {
    UnescapeEscape(a);
    UnescapeEscape(b);
  }
}

=== FILE: percent.dfy ===
/** `encodeURIComponent` as specified in section 19.2.6.5 of ECMA-262: the
    unreserved characters (ASCII letters, digits and `- _ . ! ~ * ' ( )`)
    pass through, every other character becomes the `%XX` triplets of its
    UTF-8 bytes, with upper-case hexadecimal digits. A decoder in the manner
    of `decodeURIComponent` is its inverse. */
module Percent {
  import opened Wrappers
  import opened Utf8
  import opened Doubling
  import opened Seqs

  predicate Unreserved(c: char) {
    || 'A' <= c <= 'Z' || 'a' <= c <= 'z' || '0' <= c <= '9'
    || c == '-' || c == '_' || c == '.' || c == '!' || c == '~'
    || c == '*' || c == '\'' || c == '(' || c == ')'
  }

  /** The characters an encoded string is made of. */
  predicate EncodedAlphabet(e: string) {
    forall i :: 0 <= i < |e| ==> e[i] == '%' || Unreserved(e[i])
  }

  /** Digits and upper-case `A`-`F`: the only characters `encodeURIComponent`
      writes after a `%`. */
  predicate UpperHex(c: char) {
    '0' <= c <= '9' || 'A' <= c <= 'F'
  }

  /** `e` is a run of `%XX` triplets with upper-case hexadecimal digits. */
  predicate UpperTriplets(e: string)
    decreases |e|
  {
    e == [] || (|e| >= 3 && e[0] == '%' && UpperHex(e[1]) && UpperHex(e[2]) && UpperTriplets(e[3..]))
  }

  function HexDigit(n: int): (c: char)
    requires 0 <= n < 16
    ensures Unreserved(c) && c != '-' && UpperHex(c)
  {
    "0123456789ABCDEF"[n]
  }

  /** Value of a hexadecimal digit of either case. */
  function HexValue(c: char): Option<int> {
    if '0' <= c <= '9' then Some(c as int - '0' as int)
    else if 'A' <= c <= 'F' then Some(c as int - 'A' as int + 10)
    else if 'a' <= c <= 'f' then Some(c as int - 'a' as int + 10)
    else None
  }

  function EncodeByte(b: Byte): string {
    ['%', HexDigit(b / 16), HexDigit(b % 16)]
  }

  function EncodeBytes(bs: seq<Byte>): (e: string)
    ensures |e| == 3 * |bs|
    ensures EncodedAlphabet(e) && '-' !in e
    ensures |bs| > 0 ==> e[0] == '%'
    ensures UpperTriplets(e)
  {
    if bs == [] then [] else EncodeByte(bs[0]) + EncodeBytes(bs[1..])
  }

  /** What one character becomes: itself if unreserved, otherwise one `%XX`
      triplet per byte of its UTF-8 form, which reads back as those bytes.
      Only a hyphen yields a hyphen. */
  function EncodeChar(c: char): (e: string)
    ensures |e| >= 1 && EncodedAlphabet(e)
    ensures Unreserved(c) ==> e == [c]
    ensures !Unreserved(c) ==> e[0] == '%' && |e| == 3 * |Utf8.Encode(c)|
    ensures !Unreserved(c) ==> ReadBytes(e, |Utf8.Encode(c)|) == Some(Utf8.Encode(c))
    ensures !Unreserved(c) ==> UpperTriplets(e)
    ensures '-' in e <==> c == '-'
  {
    if Unreserved(c) then [c]
    else
      var bs := Utf8.Encode(c);
      ReadEncodedBytes(bs, []);
      assert EncodeBytes(bs) + [] == EncodeBytes(bs);
      EncodeBytes(bs)
  }

  /** `encodeURIComponent(s)`. */
  function EncodeURIComponent(s: string): (e: string)
    ensures EncodedAlphabet(e)
    ensures |e| >= |s|
    ensures |e| == 0 <==> |s| == 0
    ensures |s| == 1 ==> e == EncodeChar(s[0])
  {
    if s == [] then [] else EncodeChar(s[0]) + EncodeURIComponent(s[1..])
  }

  /** Reads one `%XX` triplet at the front of `t`. */
  function ReadByte(t: string): Option<Byte> {
    if |t| >= 3 && t[0] == '%' && HexValue(t[1]).Some? && HexValue(t[2]).Some? then
      var v := HexValue(t[1]).value * 16 + HexValue(t[2]).value;
      if 0 <= v < 256 then Some(v) else None
    else None
  }

  /** Reads `n` consecutive `%XX` triplets at the front of `t`. */
  function ReadBytes(t: string, n: nat): Option<seq<Byte>>
    decreases n
  {
    if n == 0 then Some([])
    else
      match ReadByte(t)
      case None => None
      case Some(b) =>
        match ReadBytes(t[3..], n - 1)
        case None => None
        case Some(rest) => Some([b] + rest)
  }

  /** `decodeURIComponent(t)`: None where `decodeURIComponent` throws `URIError`. */
  function DecodeURIComponent(t: string): Option<string>
    decreases |t|
  {
    if t == [] then Some([])
    else if t[0] != '%' then
      match DecodeURIComponent(t[1..])
      case None => None
      case Some(rest) => Some([t[0]] + rest)
    else
      match ReadByte(t)
      case None => None
      case Some(lead) =>
        var n := SequenceLength(lead);
        if n == 0 || |t| < 3 * n then None
        else
          match ReadBytes(t, n)
          case None => None
          case Some(bs) =>
            match Utf8.Decode(bs)
            case None => None
            case Some(c) =>
              match DecodeURIComponent(t[3 * n..])
              case None => None
              case Some(rest) => Some([c] + rest)
  }

  lemma HexRoundTrip(n: int)
    requires 0 <= n < 16
    ensures HexValue(HexDigit(n)) == Some(n)
  {
  }

  lemma ReadEncodedByte(b: Byte, rest: string)
    ensures ReadByte(EncodeByte(b) + rest) == Some(b)
  {
    HexRoundTrip(b / 16);
    HexRoundTrip(b % 16);
  }

  lemma ReadBytesStep(t: string, n: nat, b: Byte, r: seq<Byte>)
    requires n > 0 && |t| >= 3 && ReadByte(t) == Some(b) && ReadBytes(t[3..], n - 1) == Some(r)
    ensures ReadBytes(t, n) == Some([b] + r)
  {
  }

  lemma EncodeBytesCons(bs: seq<Byte>, rest: string)
    requires |bs| > 0
    ensures EncodeBytes(bs) + rest == EncodeByte(bs[0]) + (EncodeBytes(bs[1..]) + rest)
    ensures (EncodeBytes(bs) + rest)[3..] == EncodeBytes(bs[1..]) + rest
  {
    var head, more := EncodeByte(bs[0]), EncodeBytes(bs[1..]);
    assert EncodeBytes(bs) == head + more;
    AppendAssoc(head, more, rest);
    DropAppend(head, more + rest);
  }

  lemma {:induction false} ReadEncodedBytes(bs: seq<Byte>, rest: string)
    ensures ReadBytes(EncodeBytes(bs) + rest, |bs|) == Some(bs)
    decreases |bs|
  {
    if bs != [] {
      var t := EncodeBytes(bs) + rest;
      var tail := EncodeBytes(bs[1..]) + rest;
      assert |t| >= 3 && ReadByte(t) == Some(bs[0]) && t[3..] == tail by {
        EncodeBytesCons(bs, rest);
        ReadEncodedByte(bs[0], tail);
      }
      assert ReadBytes(tail, |bs| - 1) == Some(bs[1..]) by {
        ReadEncodedBytes(bs[1..], rest);
      }
      ReadBytesStep(t, |bs|, bs[0], bs[1..]);
      assert [bs[0]] + bs[1..] == bs;
    }
  }

  /** One step of the decoder on an encoded character. */
  lemma DecodeStep(t: string, bs: seq<Byte>, c: char, r: string)
    requires |bs| > 0 && |t| >= 3 * |bs| && t[0] == '%'
    requires ReadByte(t) == Some(bs[0]) && SequenceLength(bs[0]) == |bs|
    requires ReadBytes(t, |bs|) == Some(bs) && Utf8.Decode(bs) == Some(c)
    requires DecodeURIComponent(t[3 * |bs|..]) == Some(r)
    ensures DecodeURIComponent(t) == Some([c] + r)
  {
  }

  lemma DecodeStepNone(t: string, bs: seq<Byte>, c: char)
    requires |bs| > 0 && |t| >= 3 * |bs| && t[0] == '%'
    requires ReadByte(t) == Some(bs[0]) && SequenceLength(bs[0]) == |bs|
    requires ReadBytes(t, |bs|) == Some(bs) && Utf8.Decode(bs) == Some(c)
    requires DecodeURIComponent(t[3 * |bs|..]) == None
    ensures DecodeURIComponent(t) == None
  {
  }

  lemma DecodeEncodedChar(c: char, rest: string)
    requires !Unreserved(c)
    ensures DecodeURIComponent(EncodeChar(c) + rest)
         == (match DecodeURIComponent(rest)
             case None => None
             case Some(r) => Some([c] + r))
  {
    var bs := Utf8.Encode(c);
    var t := EncodeBytes(bs) + rest;
    assert EncodeChar(c) + rest == t;
    EncodeBytesCons(bs, rest);
    ReadEncodedByte(bs[0], EncodeBytes(bs[1..]) + rest);
    ReadEncodedBytes(bs, rest);
    Utf8.DecodeEncode(c);
    assert t[3 * |bs|..] == rest;
    match DecodeURIComponent(rest)
    case None => DecodeStepNone(t, bs, c);
    case Some(r) => DecodeStep(t, bs, c, r);
  }

  /** Decoding undoes `encodeURIComponent`. */
  lemma {:induction false} DecodeEncode(s: string)
    ensures DecodeURIComponent(EncodeURIComponent(s)) == Some(s)
    decreases |s|
  {
    if s != [] {
      DecodeEncode(s[1..]);
      var rest := EncodeURIComponent(s[1..]);
      if Unreserved(s[0]) {
        var t := EncodeURIComponent(s);
        assert t == [s[0]] + rest;
        assert t[1..] == rest;
        assert '%' != s[0];
      } else {
        DecodeEncodedChar(s[0], rest);
      }
      assert [s[0]] + s[1..] == s;
    }
  }

  lemma {:induction false} EncodeAppend(a: string, b: string)
    ensures EncodeURIComponent(a + b) == EncodeURIComponent(a) + EncodeURIComponent(b)
    decreases |a|
  {
    if a == [] {
      assert a + b == b;
    } else {
      var head := EncodeChar(a[0]);
      assert (a + b)[0] == a[0] && (a + b)[1..] == a[1..] + b;
      calc {
        EncodeURIComponent(a + b);
        head + EncodeURIComponent(a[1..] + b);
        { EncodeAppend(a[1..], b); }
        head + (EncodeURIComponent(a[1..]) + EncodeURIComponent(b));
        { AppendAssoc(head, EncodeURIComponent(a[1..]), EncodeURIComponent(b)); }
        (head + EncodeURIComponent(a[1..])) + EncodeURIComponent(b);
        EncodeURIComponent(a) + EncodeURIComponent(b);
      }
    }
  }

  /** A string of unreserved characters is its own encoding. */
  lemma {:induction false} EncodeUnreservedUnchanged(s: string)
    requires forall i :: 0 <= i < |s| ==> Unreserved(s[i])
    ensures EncodeURIComponent(s) == s
    decreases |s|
  {
    if s != [] {
      EncodeUnreservedUnchanged(s[1..]);
      assert [s[0]] + s[1..] == s;
    }
  }

  /** The front of an encoding is a hyphen exactly when the input starts
      with one. */
  lemma EncodeFirstChar(s: string)
    requires |s| > 0
    ensures EncodeURIComponent(s)[0] == '-' <==> s[0] == '-'
  {
    var e := EncodeChar(s[0]);
    assert EncodeURIComponent(s)[0] == e[0];
    if !Unreserved(s[0]) {
      assert e[0] == '%';
    }
  }

  /** Encoding keeps hyphens paired: it maps `-` to itself and never emits
      a hyphen for any other character. */
  lemma {:induction false} EncodeKeepsHyphensPaired(s: string)
    requires HyphensPaired(s)
    ensures HyphensPaired(EncodeURIComponent(s))
    decreases |s|
  {
    if s == [] {
    } else if s[0] == '-' {
      EncodeKeepsHyphensPaired(s[2..]);
      assert s == "--" + s[2..];
      EncodeAppend("--", s[2..]);
      assert EncodeURIComponent("--") == "--" by {
        assert EncodeURIComponent("--") == "-" + EncodeURIComponent("-");
      }
      var e := EncodeURIComponent(s);
      assert e[2..] == EncodeURIComponent(s[2..]);
    } else {
      EncodeKeepsHyphensPaired(s[1..]);
      PairedPrefix(EncodeChar(s[0]), EncodeURIComponent(s[1..]));
    }
  }
}

=== FILE: rating.dfy ===
/** The decision part of `fetchData` in `api/ccf.ts` and the fallback of the
    request handler: from the user-search answer to the `UserRatingInfo`
    record (rating, label text, optional uid) that the badge is drawn from. */
module Rating {
  import opened Wrappers
  import opened Tiers
  import opened Decimal
  import opened Seqs

  /** One entry of the search answer's `users` list. */
  datatype User = User(ccfLevel: int, uid: int)

  /** `UserRatingInfo`; `uid` is None where the source leaves it out. */
  datatype RatingInfo = RatingInfo(rating: int, text: string, uid: Option<int>)

  /** What the user search produced: a non-success status, a parsed `users`
      list, or a failure that makes `fetchData` reject (the request itself
      failing, a body that is not JSON, or a body without a `users` list). */
  datatype LookupResponse = NotOk | Users(users: seq<User>) | Failed

  /** The answer for a failed status or an empty result: no uid. */
  const NoRating := RatingInfo(0, "N/A", None)

  /** The handler's replacement for a rejected lookup: uid 0. */
  const LookupFallback := RatingInfo(0, "N/A", Some(0))

  const NoLevelText := "暂无CCF等级"

  /** String concatenation of a possibly `undefined` glyph, as JavaScript
      renders it. */
  function GlyphText(glyph: Option<string>): (text: string)
    ensures glyph.None? ==> text == "undefined"
    ensures glyph.Some? ==> text == glyph.value
  {
    glyph.GetOr("undefined")
  }

  /** `"CCF" + level + "级" + geta(level) + "勾"`: the level in decimal, then
      the glyph of the level's colour tier, or `undefined` in the grey tier. */
  function LevelLabel(level: int): (text: string)
    ensures |text| > 5 && text[..3] == "CCF" && text[|text| - 1] == '勾'
    ensures text[3] == '-' <==> level < 0
    ensures RatingColor(level) == Gold ==> text == "CCF" + IntToString(level) + "级金勾"
    ensures RatingColor(level) == Blue ==> text == "CCF" + IntToString(level) + "级蓝勾"
    ensures RatingColor(level) == Green ==> text == "CCF" + IntToString(level) + "级绿勾"
    ensures RatingColor(level) == Grey ==> text == "CCF" + IntToString(level) + "级undefined勾"
  {
    var digits := IntToString(level);
    var glyph := GlyphText(Glyph(level));
    LabelShape(digits, glyph);
    "CCF" + digits + "级" + glyph + "勾"
  }

  /** The frame of a label around its digits and glyph. */
  lemma LabelShape(digits: string, glyph: string)
    requires |digits| > 0
    ensures var t := "CCF" + digits + "级" + glyph + "勾";
      && |t| > 5 && t[..3] == "CCF" && t[3] == digits[0] && t[|t| - 1] == '勾'
      && t == "CCF" + digits + ("级" + glyph + "勾")
  {
    var t := "CCF" + digits + "级" + glyph + "勾";
    assert t[3] == ("CCF" + digits)[3];
  }

  /** Longest prefix of `s` made of characters that can render an integer. */
  function NumeralPrefix(s: string): (p: string)
    ensures |p| <= |s| && p == s[..|p|]
  {
    if s != [] && IsNumeral(s[0]) then [s[0]] + NumeralPrefix(s[1..]) else []
  }

  /** Reads the level back out of a label: the integer right after `CCF`. */
  function ParseLabel(text: string): Option<int> {
    if |text| >= 3 && text[..3] == "CCF" then ParseInt(NumeralPrefix(text[3..])) else None
  }

  lemma {:induction false} NumeralPrefixAppend(a: string, b: string)
    requires forall i :: 0 <= i < |a| ==> IsNumeral(a[i])
    requires |b| > 0 && !IsNumeral(b[0])
    ensures NumeralPrefix(a + b) == a
    decreases |a|
  {
    if a == [] {
      assert a + b == b;
    } else {
      assert (a + b)[1..] == a[1..] + b;
      NumeralPrefixAppend(a[1..], b);
      assert [a[0]] + a[1..] == a;
    }
  }

  /** The label names its level unambiguously. */
  lemma LevelLabelRoundTrip(level: int)
    ensures ParseLabel(LevelLabel(level)) == Some(level)
  {
    var digits := IntToString(level);
    var rest := "级" + GlyphText(Glyph(level)) + "勾";
    var text := LevelLabel(level);
    assert text[3..] == digits + rest by {
      assert text == "CCF" + (digits + rest);
      DropAppend("CCF", digits + rest);
    }
    NumeralPrefixAppend(digits, rest);
    IntToStringRoundTrip(level);
  }

  /** Lines 33-36 of `fetchData`: only the first user is looked at; a zero
      level has its own text; otherwise the rating is the level and the
      label spells it out. */
  function RatingFromUsers(users: seq<User>): (info: RatingInfo)
    ensures |users| == 0 ==> info == NoRating
    ensures |users| > 0 ==> info.rating == users[0].ccfLevel && info.uid == Some(users[0].uid)
    ensures |users| > 0 && users[0].ccfLevel == 0 ==> info.text == NoLevelText
    ensures |users| > 0 && users[0].ccfLevel != 0 ==> info.text == LevelLabel(users[0].ccfLevel)
    ensures |users| > 0 && users[0].ccfLevel != 0 ==> ParseLabel(info.text) == Some(info.rating)
  {
    if |users| == 0 then NoRating
    else
      var first := users[0];
      if first.ccfLevel == 0 then RatingInfo(0, NoLevelText, Some(first.uid))
      else
        LevelLabelRoundTrip(first.ccfLevel);
        RatingInfo(first.ccfLevel, LevelLabel(first.ccfLevel), Some(first.uid))
  }

  /** Entries after the first never affect the result. */
  lemma OnlyFirstUserMatters(users: seq<User>, others: seq<User>)
    requires |users| > 0
    ensures RatingFromUsers([users[0]] + others) == RatingFromUsers(users)
  {
  }

  /** Worked cases: a level-0 user, a level-9 user, a level-2 user and an
      empty result. */
  lemma RatingExamples()
    ensures RatingFromUsers([User(0, 42)]) == RatingInfo(0, "暂无CCF等级", Some(42))
    ensures RatingFromUsers([User(9, 7)]) == RatingInfo(9, "CCF9级金勾", Some(7))
    ensures RatingFromUsers([User(2, 5)]) == RatingInfo(2, "CCF2级undefined勾", Some(5))
    ensures RatingFromUsers([]) == RatingInfo(0, "N/A", None)
  {
    LevelNineLabel();
    LevelTwoLabel();
  }

  lemma LevelNineLabel()
    ensures LevelLabel(9) == "CCF9级金勾"
  {
    assert IntToString(9) == "9";
  }

  lemma LevelTwoLabel()
    ensures LevelLabel(2) == "CCF2级undefined勾"
  {
    assert IntToString(2) == "2";
  }

  /** `fetchData`: None where its promise rejects. */
  function FetchData(response: LookupResponse): (info: Option<RatingInfo>)
    ensures info.None? <==> response.Failed?
    ensures response.NotOk? ==> info == Some(NoRating)
    ensures response.Users? ==> info == Some(RatingFromUsers(response.users))
  {
    match response
    case NotOk => Some(NoRating)
    case Users(users) => Some(RatingFromUsers(users))
    case Failed => None
  }

  /** Line 67: the record the badge is drawn from, with the `.catch`
      fallback for a rejected lookup. A lookup never fails the request. */
  function ResolveInfo(response: LookupResponse): (info: RatingInfo)
    ensures response.Failed? ==> info == LookupFallback
    ensures !response.Failed? ==> Some(info) == FetchData(response)
  {
    FetchData(response).GetOr(LookupFallback)
  }

  /** The rating is 0 or the first user's level; a nonzero rating comes with
      a `CCF…勾` label naming that same level. */
  lemma RatingField(response: LookupResponse)
    ensures var info := ResolveInfo(response);
      && (info.rating == 0
          || (response.Users? && |response.users| > 0 && info.rating == response.users[0].ccfLevel))
      && (info.rating != 0 ==>
            && info.text[..3] == "CCF" && info.text[|info.text| - 1] == '勾'
            && ParseLabel(info.text) == Some(info.rating))
  {
  }

  /** Every label the handler can produce is nonempty and does not start
      with a hyphen. */
  lemma LabelNeverStartsWithHyphen(response: LookupResponse)
    ensures var text := ResolveInfo(response).text;
      |text| > 0 && text[0] != '-'
  {
    var info := ResolveInfo(response);
    if info.rating != 0 {
      assert info.text[..3] == "CCF";
      assert info.text[0] == 'C';
    }
  }
}

=== FILE: seqs.dfy ===
/** Small facts about string concatenation, stated once and used wherever a
    proof would otherwise make the solver rediscover them. */
module Seqs {

  lemma AppendAssoc(a: string, b: string, c: string)
    ensures (a + b) + c == a + (b + c)
  {
  }

  lemma DropAppend(a: string, b: string)
    ensures (a + b)[|a|..] == b
  {
  }

  lemma PrefixThroughAppend(a: string, b: string, n: nat)
    requires n <= |a|
    ensures (a + b)[..n] == a[..n]
  {
  }
}

=== FILE: tiers.dfy ===
/** The two rating tables of `api/ccf.ts`: `getRatingColor`, the badge
    background colour of a CCF level, and `geta`, the tier glyph placed in
    the label text. */
module Tiers {
  import opened Wrappers

  const Gold := "ffc116"
  const Blue := "3498db"
  const Green := "5eb95e"
  const Grey := "808080"

  /** `getRatingColor`: the four colour tiers partition the integers. */
  function RatingColor(rating: int): (color: string)
    ensures color == Gold <==> rating >= 8
    ensures color == Blue <==> 6 <= rating <= 7
    ensures color == Green <==> 3 <= rating <= 5
    ensures color == Grey <==> rating < 3
  {
    if rating >= 8 then Gold
    else if rating >= 6 then Blue
    else if rating >= 3 then Green
    else Grey
  }

  /** Position of a colour in the tier order, lowest tier first. */
  function ColorRank(color: string): nat {
    if color == Gold then 3
    else if color == Blue then 2
    else if color == Green then 1
    else 0
  }

  /** A higher rating never gets a lower colour tier. */
  lemma RatingColorMonotone(r1: int, r2: int)
    requires r1 <= r2
    ensures ColorRank(RatingColor(r1)) <= ColorRank(RatingColor(r2))
  {
  }

  /** `geta`: a glyph exists exactly from level 3 up (below that the source
      falls off the end of the function and yields `undefined`), and its tier
      is the tier of the colour `getRatingColor` picks for the same level. */
  function Glyph(rating: int): (glyph: Option<string>)
    ensures glyph.Some? <==> rating >= 3
    ensures glyph == Some("金") <==> RatingColor(rating) == Gold
    ensures glyph == Some("蓝") <==> RatingColor(rating) == Blue
    ensures glyph == Some("绿") <==> RatingColor(rating) == Green
    ensures glyph == None <==> RatingColor(rating) == Grey
  {
    if rating >= 8 then Some("金")
    else if rating >= 6 then Some("蓝")
    else if rating >= 3 then Some("绿")
    else None
  }
}

=== FILE: utf8.dfy ===
/** UTF-8 encoding of one Unicode scalar value, the byte sequence that
    `encodeURIComponent` percent-encodes for every character outside its
    unreserved set, and the matching decoder. */
module Utf8 {
  import opened Wrappers

  type Byte = b: int | 0 <= b < 256

  predicate IsScalar(cp: int) {
    0 <= cp < 0xD800 || 0xE000 <= cp < 0x11_0000
  }

  predicate IsContinuation(b: Byte) {
    0x80 <= b < 0xC0
  }

  /** Length of the sequence a lead byte announces; 0 for a byte that
      cannot start a sequence. */
  function SequenceLength(lead: Byte): nat {
    if lead < 0x80 then 1
    else if 0xC0 <= lead < 0xE0 then 2
    else if 0xE0 <= lead < 0xF0 then 3
    else if 0xF0 <= lead < 0xF8 then 4
    else 0
  }

  /** The shortest UTF-8 form of `c`. */
  function Encode(c: char): (bs: seq<Byte>)
    ensures 1 <= |bs| <= 4 && SequenceLength(bs[0]) == |bs|
    ensures forall i :: 1 <= i < |bs| ==> IsContinuation(bs[i])
    ensures |bs| == 1 <==> c as int < 0x80
  {
    var cp := c as int;
    if cp < 0x80 then [cp]
    else if cp < 0x800 then [0xC0 + cp / 64, 0x80 + cp % 64]
    else if cp < 0x1_0000 then [0xE0 + cp / 4096, 0x80 + (cp / 64) % 64, 0x80 + cp % 64]
    else [0xF0 + cp / 262144, 0x80 + (cp / 4096) % 64, 0x80 + (cp / 64) % 64, 0x80 + cp % 64]
  }

  /** Decodes one complete sequence; None for a malformed, overlong or
      surrogate sequence. */
  function Decode(bs: seq<Byte>): Option<char> {
    if |bs| == 1 && bs[0] < 0x80 then
      Some(bs[0] as char)
    else if |bs| == 2 && SequenceLength(bs[0]) == 2 && IsContinuation(bs[1]) then
      var cp := (bs[0] as int - 0xC0) * 64 + (bs[1] as int - 0x80);
      if 0x80 <= cp then Some(cp as char) else None
    else if |bs| == 3 && SequenceLength(bs[0]) == 3 && IsContinuation(bs[1]) && IsContinuation(bs[2]) then
      var cp := (bs[0] as int - 0xE0) * 4096 + (bs[1] as int - 0x80) * 64 + (bs[2] as int - 0x80);
      if 0x800 <= cp && IsScalar(cp) then Some(cp as char) else None
    else if |bs| == 4 && SequenceLength(bs[0]) == 4
         && IsContinuation(bs[1]) && IsContinuation(bs[2]) && IsContinuation(bs[3]) then
      var cp := (bs[0] as int - 0xF0) * 262144 + (bs[1] as int - 0x80) * 4096 + (bs[2] as int - 0x80) * 64 + (bs[3] as int - 0x80);
      if 0x1_0000 <= cp < 0x11_0000 then Some(cp as char) else None
    else
      None
  }

  lemma Split64(n: int, q: int, r: int)
    requires 0 <= r < 64 && n == q * 64 + r
    ensures n / 64 == q && n % 64 == r
  {
  }

  lemma Split4096(n: int, q: int, r: int)
    requires 0 <= r < 4096 && n == q * 4096 + r
    ensures n / 4096 == q && n % 4096 == r
  {
  }

  lemma Split262144(n: int, q: int, r: int)
    requires 0 <= r < 262144 && n == q * 262144 + r
    ensures n / 262144 == q && n % 262144 == r
  {
  }

  lemma DecodeEncode2(c: char)
    requires 0x80 <= c as int < 0x800
    ensures Decode(Encode(c)) == Some(c)
  {
    var cp := c as int;
    Split64(cp, cp / 64, cp % 64);
    var bs := Encode(c);
    assert bs == [0xC0 + cp / 64, 0x80 + cp % 64];
  }

  lemma DecodeEncode3(c: char)
    requires 0x800 <= c as int < 0x1_0000
    ensures Decode(Encode(c)) == Some(c)
  {
    var cp := c as int;
    var hi, mid, lo := cp / 4096, (cp / 64) % 64, cp % 64;
    Split64(cp / 64, cp / 64 / 64, mid);
    Split4096(cp, hi, cp % 4096);
    Split64(cp, cp / 64, lo);
    assert cp / 64 / 64 == hi;
    var bs := Encode(c);
    assert bs == [0xE0 + hi, 0x80 + mid, 0x80 + lo];
    assert hi * 4096 + mid * 64 + lo == cp;
  }

  lemma DecodeEncode4(c: char)
    requires 0x1_0000 <= c as int
    ensures Decode(Encode(c)) == Some(c)
  {
    var cp := c as int;
    var b0, b1, b2, b3 := cp / 262144, (cp / 4096) % 64, (cp / 64) % 64, cp % 64;
    Split262144(cp, b0, cp % 262144);
    Split4096(cp, cp / 4096, cp % 4096);
    Split64(cp / 4096, cp / 4096 / 64, b1);
    Split64(cp, cp / 64, b3);
    Split64(cp / 64, cp / 64 / 64, b2);
    assert cp / 4096 / 64 == b0;
    assert cp / 64 / 64 == cp / 4096;
    var bs := Encode(c);
    assert bs == [0xF0 + b0, 0x80 + b1, 0x80 + b2, 0x80 + b3];
    assert b0 * 262144 + b1 * 4096 + b2 * 64 + b3 == cp;
  }

  lemma DecodeEncode(c: char)
    ensures Decode(Encode(c)) == Some(c)
  {
    var cp := c as int;
    if 0x80 <= cp < 0x800 {
      DecodeEncode2(c);
    } else if 0x800 <= cp < 0x1_0000 {
      DecodeEncode3(c);
    } else if 0x1_0000 <= cp {
      DecodeEncode4(c);
    }
  }

  lemma EncodeDecode2(bs: seq<Byte>, c: char)
    requires |bs| == 2 && Decode(bs) == Some(c)
    ensures Encode(c) == bs
  {
    var x, y := bs[0] as int - 0xC0, bs[1] as int - 0x80;
    assert c as int == x * 64 + y;
    Split64(c as int, x, y);
  }

  lemma EncodeDecode3(bs: seq<Byte>, c: char)
    requires |bs| == 3 && Decode(bs) == Some(c)
    ensures Encode(c) == bs
  {
    var x, y, z := bs[0] as int - 0xE0, bs[1] as int - 0x80, bs[2] as int - 0x80;
    var cp := c as int;
    assert cp == x * 4096 + y * 64 + z;
    Split64(cp, x * 64 + y, z);
    Split64(x * 64 + y, x, y);
    Split4096(cp, x, y * 64 + z);
  }

  lemma EncodeDecode4(bs: seq<Byte>, c: char)
    requires |bs| == 4 && Decode(bs) == Some(c)
    ensures Encode(c) == bs
  {
    var w, x, y, z := bs[0] as int - 0xF0, bs[1] as int - 0x80, bs[2] as int - 0x80, bs[3] as int - 0x80;
    var cp := c as int;
    assert cp == w * 262144 + x * 4096 + y * 64 + z;
    Split64(cp, w * 4096 + x * 64 + y, z);
    Split64(w * 4096 + x * 64 + y, w * 64 + x, y);
    Split4096(cp, w * 64 + x, y * 64 + z);
    Split64(w * 64 + x, w, x);
    Split262144(cp, w, x * 4096 + y * 64 + z);
  }

  lemma EncodeDecode(bs: seq<Byte>, c: char)
    requires Decode(bs) == Some(c)
    ensures Encode(c) == bs
  {
    if |bs| == 2 {
      EncodeDecode2(bs, c);
    } else if |bs| == 3 {
      EncodeDecode3(bs, c);
    } else if |bs| == 4 {
      EncodeDecode4(bs, c);
    }
  }

  /** A byte sequence decodes to `c` exactly when it is the encoding of `c`. */
  lemma DecodeIffEncode(bs: seq<Byte>, c: char)
    ensures Decode(bs) == Some(c) <==> Encode(c) == bs
  {
    if Decode(bs) == Some(c) {
      EncodeDecode(bs, c);
    }
    if Encode(c) == bs {
      DecodeEncode(c);
    }
  }
}

=== FILE: wrappers.dfy ===
/** The `Option` datatype used wherever the source has a value that may be
    `undefined` (an absent `uid`, a missing tier glyph, an absent query
    parameter) or an operation that may fail (decoding). */
module Wrappers {

  datatype Option<+T> = None | Some(value: T) {

    /** The carried value, or `default` when there is none. */
    function GetOr(default: T): T {
      match this
      case Some(v) => v
      case None => default
    }
  }
}
